=== FILE: README.md ===
# Scoped key/value cache of shframework, in Dafny

This project models the client-side persistent cache of the shframework Vue plugin layer and proves properties of the model. The cache memoises HTTP results per signed-in user in an IndexedDB database (`ShTableCacheDB`, version 2). The database has a value store (`table_cache`) and a metadata store (`cache_metadata`). The model also covers the two pieces of configuration logic around the cache:

- the plugin-option filter in `install`, which decides what is persisted as `ShConfig`;
- `getShConfig`, which reads that record back, and `flushCache`, which is the public entry point to the cache's global flush.

The modules follow the program's structure:

- `js_values.dfy` (`JsValues`): the JavaScript value semantics the code relies on. This covers truthiness, `??`/`||`, `typeof`, `ToString` and `join`, own-property lookup, and the structured-clone test. Numbers are integers. An object is the map of its own properties.
- `key_value_store.dfy` (`KeyValueStore`): `ShStorage`, the persisted key/value store. It is an abstract map whose entries hold a value or cannot be read back.
- `namespace.dfy` (`Namespace`): `getPrefix`, which builds the per-user key prefix.
- `connection.dfy` (`Connection`): `getDB`, which memoises the open promise, plus the schema upgrade. The browser database is reduced to a version, a set of store names and the two stores' contents.
- `cache.dfy` (`Cache`): `setItem`, `getItem`, `removeItem` and `clear`. Each is one atomic step on the two stores. Completions are explicit values (`Ok`/`Err`), and a `Fault` parameter says which request of the transaction fails, if any. A failed request aborts its transaction, so neither store changes.
- `frontend.dfy` (`Frontend`): the defaulting and filtering done by `install`.
- `repo.dfy` (`Repo`): `getShConfig` and `flushCache`.

Three behaviours of the code that callers may not expect:

- **A failed open is cached.** `dbPromise` is never reset, so a rejected open promise is returned to every later caller. The manager never retries (`Connection.FailedOpenIsPermanent`).
- **One request settles each promise, and its failure is not caught.** Each operation returns a promise from inside its `try` without awaiting it. That promise settles on the handlers of a single request:
  - the value store's `put` for `setItem`;
  - its `get` for `getItem`;
  - its `delete` for `removeItem`;
  - the metadata store's `clear` for `clear`.

  When that request fails, the operation rejects. When the other request of the transaction fails (the metadata `put` in `setItem`, the metadata `delete` in `removeItem`), the first request's success has already resolved the promise. The transaction then aborts, so nothing was written or removed. A resolved `setItem` or `removeItem` therefore does not guarantee the write or the removal. `clear` does reject in this case: the value store's failed clear aborts the transaction before the metadata clear can succeed. Only a failure to get the connection is caught. In that case writes resolve and `getItem` resolves with its default.
- **Stored `ShConfig` keeps the option as given.** The default field list `['id']` computed in `install` is only provided to components, not persisted. `getPrefix` applies its own `|| ['id']`.

## Model

| member | source | states |
|---|---|---|
| Namespace.CacheUserFields | src/lib/repo/repositories/ShIndexedDB.js:14 | the configured field list when it is truthy, `['id']` otherwise |
| Namespace.LookupAll | src/lib/repo/repositories/ShIndexedDB.js:17 | one looked-up value per configured field, in order; it throws exactly when some field cannot be turned into a property key |
| Namespace.DropNullish | src/lib/repo/repositories/ShIndexedDB.js:18 | keeps exactly the values that are neither `undefined` nor `null`, and no more values than it was given |
| Namespace.DropNullishSingle | src/lib/repo/repositories/ShIndexedDB.js:18 | a single value survives exactly when it is neither `undefined` nor `null` |
| Namespace.DropNullishAppend | src/lib/repo/repositories/ShIndexedDB.js:18 | the filter commutes with concatenation, so kept values stay in the configured order, with their repetitions |
| Namespace.ResolvedValues | src/lib/repo/repositories/ShIndexedDB.js:14-18 | a field list that is not an array throws a TypeError (`fields.map` is not a function); otherwise it throws exactly when a field lookup throws, and yields the non-nullish looked-up values in field order |
| Namespace.PrefixOf | src/lib/repo/repositories/ShIndexedDB.js:14-21 | the build succeeds exactly when the field values resolve and all render as strings, and otherwise throws a TypeError; a computed prefix is empty or ends in `_`; no resolved field value gives `''` |
| Namespace.PrefixOfSucceeds | src/lib/repo/repositories/ShIndexedDB.js:16-21 | for any number of resolved values whose join succeeds, the prefix is the `_`-joined values followed by `_`, or `''` for an empty join |
| Namespace.TwoFieldPrefix | src/lib/repo/repositories/ShIndexedDB.js:14-21 | fields `['id', 'org']` with user `{id: 1, org: 2}` give `1_2_` |
| Namespace.GetPrefix | src/lib/repo/repositories/ShIndexedDB.js:10-26 | never fails: an unreadable config or user, or any exception while building the prefix, yields `''`; otherwise it is the prefix built from `config || {}` and `user || {}` |
| Namespace.PrefixEmptyIff | src/lib/repo/repositories/ShIndexedDB.js:16-21 | the prefix is `''` exactly when no field resolved, or a single one resolved and renders as `''`; otherwise it is the `_`-joined values followed by `_` |
| JsValues.JoinOkIffAllRender | src/lib/repo/repositories/ShIndexedDB.js:19 | `join` succeeds exactly when every element can be rendered as a string (it throws only on a Symbol) |
| JsValues.JoinEmptyIff | src/lib/repo/repositories/ShIndexedDB.js:19-21 | a `join` with a non-empty separator is empty exactly for zero elements, or for one element that renders as `''` |
| Namespace.NoUserGivesEmptyPrefix | src/lib/repo/repositories/ShIndexedDB.js:13-21 | a missing or falsy user gives the shared namespace `''`, whatever fields are configured |
| Namespace.DefaultFieldsUseId | src/lib/repo/repositories/ShIndexedDB.js:12-21 | without `cacheUserFields`, a user whose `id` is neither `undefined` nor `null` and renders as a non-empty string gets that rendering followed by `_` (a user without `id`, or with `id: ''`, gets `''`) |
| Namespace.UserSevenPrefix | src/lib/repo/repositories/ShIndexedDB.js:12-21 | user `{id: 7}` with no configuration gives prefix `7_` |
| Namespace.DistinctIdsDistinctPrefixes | src/lib/repo/repositories/ShIndexedDB.js:14-21 | under the default fields, different numeric user ids give different prefixes |
| Connection.Upgrade | src/lib/repo/repositories/ShIndexedDB.js:34-42 | afterwards both stores exist; an existing store keeps its data and a created one starts empty |
| Connection.UpgradeNoOpWhenInitialized | src/lib/repo/repositories/ShIndexedDB.js:36-41 | on a database that already has both stores, the upgrade changes nothing |
| Connection.UpgradeIdempotent | src/lib/repo/repositories/ShIndexedDB.js:34-42 | running the upgrade twice equals running it once |
| Connection.Open | src/lib/repo/repositories/ShIndexedDB.js:32-51 | the open succeeds exactly when the browser allows it and the stored version is at most 2; success leaves version 2, with both stores for a database satisfying `DiskWf` (every version-2 database has both stores); a store that already existed keeps its data; failure leaves the database untouched |
| Connection.GetDB | src/lib/repo/repositories/ShIndexedDB.js:28-55 | issues an open only when no promise is memoised; afterwards a promise always exists, success means connected, and the connection invariant is kept |
| Connection.GetDBMemoised | src/lib/repo/repositories/ShIndexedDB.js:29 | a second call returns the first call's promise and changes nothing, whatever the browser would now do |
| Connection.FailedOpenIsPermanent | src/lib/repo/repositories/ShIndexedDB.js:48-51 | a rejected open stays memoised and is returned again without a new open |
| Connection.FirstOpenCreatesSchema | src/lib/repo/repositories/ShIndexedDB.js:31-42 | the first open of a fresh profile yields version 2 with both stores, empty, after one open |
| Cache.SetItem | src/lib/repo/repositories/ShIndexedDB.js:57-83 | only the prefixed key can change in either store; a change stores the value there; it rejects only with a not-found, clone or request error; a lost connection is swallowed |
| Cache.PutTx | src/lib/repo/repositories/ShIndexedDB.js:62-78 | the write transaction changes only the prefixed key in either store, and any change stores the value there; a healthy success leaves the value stored |
| Cache.PutTxIdempotent | src/lib/repo/repositories/ShIndexedDB.js:66-75 | re-running the write transaction on its own result changes nothing |
| Cache.HealthySetSucceeds | src/lib/repo/repositories/ShIndexedDB.js:59-77 | on an open connection with no request failure, writing a cloneable value (with cloneable metadata) resolves and keeps the connection |
| Cache.GetItem | src/lib/repo/repositories/ShIndexedDB.js:85-103 | never changes the stores; it answers the stored value unless that is `undefined`, else the default; a lost connection gives the default; a default passed as `undefined` becomes `null`, so a read never resolves with `undefined` |
| Cache.HealthyRemoveResolves | src/lib/repo/repositories/ShIndexedDB.js:114-117 | on an open connection, a removal resolves whether or not the key existed, unless the value store's delete fails |
| Cache.SecondaryFailureResolvesUnwritten | src/lib/repo/repositories/ShIndexedDB.js:66-117 | when the metadata request fails after the value request succeeded, `setItem` and `removeItem` resolve, yet nothing is written or removed |
| Cache.RemoveItem | src/lib/repo/repositories/ShIndexedDB.js:105-123 | only the prefixed key can change; on an open connection it resolves, whether or not the key existed, unless the value store's delete fails; after a healthy transaction the key is absent from both stores; any change removes it from both |
| Cache.Clear | src/lib/repo/repositories/ShIndexedDB.js:125-142 | any change empties both stores entirely, for every prefix; a rejection leaves them as they were |
| Cache.ApplyKeepsWf | src/lib/repo/repositories/ShIndexedDB.js:28-31 | every facade call keeps the connection invariant and never replaces a memoised promise |
| Cache.RunOpensAtMostOnce | src/lib/repo/repositories/ShIndexedDB.js:28-31 | over any sequence of cache calls at most one open is ever issued, and the memoised result never changes |
| Cache.SetThenGet | src/lib/repo/repositories/ShIndexedDB.js:66-95 | after a healthy write transaction that resolved, a read under the same prefix returns the value (`0`, `false` and `''` included); only `undefined` reads as the default |
| Cache.GetAbsentIsDefault | src/lib/repo/repositories/ShIndexedDB.js:92-95 | a key with no entry under the current prefix reads as the default |
| Cache.RemoveThenGet | src/lib/repo/repositories/ShIndexedDB.js:114-115 | after a healthy removal transaction the key reads as the default, whatever it held before |
| Cache.ClearThenGet | src/lib/repo/repositories/ShIndexedDB.js:133-134 | after a successful clear, every key under every prefix reads as the default |
| Cache.DistinctPrefixesDistinctKeys | src/lib/repo/repositories/ShIndexedDB.js:59 | different prefixes never address the same entry for one key |
| Cache.SetInvisibleToOtherNamespace | src/lib/repo/repositories/ShIndexedDB.js:59-66 | a write under one prefix does not change what a reader under another prefix gets |
| Cache.IsolatedRoundTrip | src/lib/repo/repositories/ShIndexedDB.js:59-95 | under distinct prefixes, after user A writes a key, user B reads their default for it (when they had no entry) and A reads the value |
| Cache.TwoUsersScenario | src/lib/repo/repositories/ShIndexedDB.js:87-95 | user 1 caches `x`; user 2 then reads their default for `x`, while user 1 reads the value |
| Cache.SetWritesMetadataRecord | src/lib/repo/repositories/ShIndexedDB.js:68-75 | with truthy metadata, the record `{key: prefix+key, originalKey: key, url: metadata.url, timestamp: now}` is stored under the prefixed key |
| Cache.SetWithoutMetadataKeepsRecords | src/lib/repo/repositories/ShIndexedDB.js:68 | with falsy metadata the metadata store is untouched, so an older record for the key survives |
| Cache.SetIdempotent | src/lib/repo/repositories/ShIndexedDB.js:66-75 | writing the same entry twice leaves the same state as writing it once |
| Cache.ClearIdempotent | src/lib/repo/repositories/ShIndexedDB.js:133-134 | clearing twice leaves the same stores as clearing once |
| Cache.FailedConnectionDegradesGracefully | src/lib/repo/repositories/ShIndexedDB.js:80-82 | once the open has failed, writes, removals and clears resolve with nothing changed, and reads resolve with the default (`null` when it is passed as `undefined`) |
| Frontend.PersistedOptions | src/lib/plugins/ShFrontend.js:91-93 | `formTextInput`, `router` and `shFormElementClasses` are always dropped; strings, numbers and booleans are kept; other values are kept only for `enableTableCache` and `cacheUserFields`; kept values are unchanged |
| Frontend.DeleteUnwanted | src/lib/plugins/ShFrontend.js:93 | deleting keys in place while walking a snapshot of the keys yields exactly the declarative filter, in any walk order |
| Frontend.NoClassesGivenUsesDefaults | src/lib/plugins/ShFrontend.js:21-31 | with no class object given, every form class takes its literal default; `formControl` is `'invalid-feedback'` |
| Frontend.ElementClasses | src/lib/plugins/ShFrontend.js:21-31 | for each of the seven classes: an own, non-nullish property of the class option wins; anything else gives that class's literal default; no resolved class is nullish |
| Frontend.ClassesObject | src/lib/plugins/ShFrontend.js:23-31 | the resolved classes as an object with one property per class name |
| Frontend.ElementClassesIdempotent | src/lib/plugins/ShFrontend.js:21-31 | passing the resolved classes back in as the class option resolves to the same classes, whatever was given first |
| Frontend.ProvidedCacheUserFields | src/lib/plugins/ShFrontend.js:48 | the provided field list is the option when it is not nullish, else `['id']` |
| Frontend.Install | src/lib/plugins/ShFrontend.js:17-95 | `ShConfig` holds the filtered options; a truthy `sessionTimeout` is stored under `sessionTimeout`; no other store entry changes |
| Frontend.InstalledFieldsDrivePrefix | src/lib/plugins/ShFrontend.js:92-95 | for an array or absent `cacheUserFields`, the field list the resolver reads from `ShConfig` equals the one provided to components |
| Repo.GetShConfig | src/lib/repo/helpers/ShRepo.js:119-125 | a falsy key gives the whole config (`{}` when missing); any truthy key is converted to a property name and gives that property's value unless nullish, else `def`, which is `''` when passed as `undefined`; a key that cannot be converted (a Symbol inside an array) throws a TypeError; an unreadable entry propagates its exception |
| Repo.MissingConfigGivesDefault | src/lib/repo/helpers/ShRepo.js:119-124 | with no stored config, every keyed lookup gives `def` (`''` for an undefined `def`), and the defaulted call `getShConfig()` gives `{}` |
| Repo.InstalledConfigReadBack | src/lib/repo/helpers/ShRepo.js:119-123 | after `install`, every option the filter strips (including non-primitive options outside the allowed keys) reads back as `def`, and kept primitive options read back as given |
| Repo.NumberKeyReadsRenderedProperty | src/lib/repo/helpers/ShRepo.js:119-123 | a number key reads the property named by its decimal rendering: `getShConfig(1)` reads `config['1']` |
| Repo.FlushCache | src/lib/repo/helpers/ShRepo.js:308-310 | is the cache's `clear`; on success both stores are empty for every user |

## Left out

- Promise and event plumbing: `onsuccess`/`onerror` callbacks and transaction objects. Each operation is one atomic step whose completion is an explicit `Ok`/`Err` value.
- Transaction failures have no cause in the model. They are the `Fault` parameter (which request fails), and a failed request aborts its transaction as IndexedDB specifies.
- `Date.now()` is the `now` parameter of `Cache.SetItem`.
- `console.error` logging is left out.
- `ShStorage` is not part of this model. It is an abstract map; an entry that cannot be parsed back reads as a thrown `SyntaxError`. Its serialisation (what a stored value becomes when read back) is not modelled: a read returns what was written.
- JsValues.Lookup: only own properties of plain objects are found. Inherited prototype members (`toString`, `constructor`, …) and the indexed and `length` properties of strings and arrays read as `undefined`, so a user or config record that is not a plain object resolves no fields.
- JsValues.ToString: numbers are integers only; NaN, infinities, fractions and BigInt are not modelled. An object renders as `[object Object]` (no custom `toString`), and a function renders as the source text it carries.
- Cache.SetItem: keys are strings. Any other key would be converted to a string by the concatenation with the prefix, but `originalKey` would keep the raw key.
- Connection.Open: why the browser refuses an open (storage disabled, quota, permissions) is the `refused` flag. A version-change request blocked by another tab, and hangs in general, are not modelled; the source has no timeout or cancellation.
- Concurrency across tabs is not modelled. Neither is the interleaving of calls within a tab: calls are applied in sequence. The memo is set synchronously, so concurrent first calls share one open.
- The Vue wiring of `install` is not modelled: `app.provide`, the directive, router registration, `initApi`, `window.swalPosition` and the endpoint and title defaults that are only provided.
- The rest of `ShRepo.js` is not modelled: dialogs and toasts, HTTP helpers, sign-out, modal and offcanvas helpers, date formatting (Luxon) and number formatting (floating point, `Intl`). None of it touches the cache or its configuration.
- `src/main.js` is not modelled. It holds only bootstrap and configuration literals.

=== FILE: cache.dfy ===
/**
 The cache facade (`setItem`, `getItem`, `removeItem`, `clear`). Each call
 namespaces its key with the current prefix, acquires the shared connection
 and runs one IndexedDB transaction, modelled as one atomic step on the two
 stores. A failure to acquire the connection is caught: writes resolve with
 nothing done and reads resolve with the caller's default. The promise of
 the transaction is returned from the `try` without being awaited, so a
 failure of the request whose handlers settle it rejects the call.

 Which request of a transaction fails is a parameter (`Fault`). A failed
 request aborts its transaction, so neither store changes. When the failing
 request is the second one of `setItem` or `removeItem`, the promise was
 already resolved by the first request's success handler: the call resolves
 although nothing was written or removed.
 */
module Cache {
  import opened JsValues
  import opened KeyValueStore
  import opened Connection
  import Namespace

  /** Which request of the transaction fails, if any. */
  datatype Fault = Healthy | PrimaryRequestFails | SecondaryRequestFails

  /** What the browser does during one call: whether an open would be refused, and request failures. */
  datatype Env = Env(openRefused: bool, fault: Fault)

  /** How a call settles, and the state it leaves behind. */
  datatype Step<T> = Step(outcome: Result<T>, db: Db)

  /** `getPrefix() + key` */
  function PrefixedKey(storage: Storage, key: string): string {
    Namespace.GetPrefix(storage) + key
  }

  /** What `store.get(k)` yields: the stored value, or undefined when there is none. */
  function Entry(d: Disk, k: string): JsValue {
    if k in d.values then d.values[k] else Undefined
  }

  /** `d'` agrees with `d` on both stores everywhere except at key `k`. */
  ghost predicate SameExcept(d: Disk, d': Disk, k: string) {
    && d'.version == d.version
    && d'.storeNames == d.storeNames
    && (forall j :: j != k ==> Entry(d', j) == Entry(d, j))
    && d'.values.Keys - {k} == d.values.Keys - {k}
    && (forall j :: j != k && j in d.metadata ==> j in d'.metadata && d'.metadata[j] == d.metadata[j])
    && d'.metadata.Keys - {k} == d.metadata.Keys - {k}
  }

  /** The state after acquiring the connection for this call. */
  function Acquire(db: Db, env: Env): Acquired {
    GetDB(db, env.openRefused)
  }

  /** The outcome of a transaction and the database it leaves. */
  datatype Tx<T> = Tx(outcome: Result<T>, disk: Disk)

  /**
   The read-write transaction of `setItem` over both stores, for the
   prefixed key `pk`: the value's `put` is the request that settles the
   promise, the record's `put` (only for truthy metadata) is the second one.
   */
  function PutTx(d: Disk, pk: string, key: string, value: JsValue, metadata: JsValue, now: int, fault: Fault): (r: Tx<()>)
    ensures r.outcome.Err? ==> r.outcome.error in {NotFoundError, DataCloneError, RequestError}
    ensures SameExcept(d, r.disk, pk)
    ensures r.disk != d ==> Entry(r.disk, pk) == value
    ensures r.outcome.Ok? && fault == Healthy ==> pk in r.disk.values && r.disk.values[pk] == value
  {
    var written := d.(values := d.values[pk := value]);
    if !Initialized(d) then Tx(Err(NotFoundError), d)
    else if !Cloneable(value) then Tx(Err(DataCloneError), d)
    else if Truthy(metadata) && !Cloneable(Get(metadata, "url")) then
      // the record's `put` throws after the value's `put` was queued
      Tx(Err(DataCloneError), if fault == PrimaryRequestFails then d else written)
    else if fault == PrimaryRequestFails then Tx(Err(RequestError), d)
    else if fault == SecondaryRequestFails && Truthy(metadata) then Tx(Ok(()), d)
    else if Truthy(metadata) then
      Tx(Ok(()), written.(metadata := d.metadata[pk := Metadata(pk, key, Get(metadata, "url"), now)]))
    else Tx(Ok(()), written)
  }

  /** Running the write transaction again on its own result changes nothing. */
  lemma PutTxIdempotent(d: Disk, pk: string, key: string, value: JsValue, metadata: JsValue, now: int, fault: Fault)
    ensures var once := PutTx(d, pk, key, value, metadata, now, fault).disk;
      PutTx(once, pk, key, value, metadata, now, fault).disk == once
  {
    var once := PutTx(d, pk, key, value, metadata, now, fault).disk;
    if Initialized(d) && Cloneable(value) {
      var written := d.(values := d.values[pk := value]);
      assert written.values[pk := value] == written.values;
      if Truthy(metadata) && Cloneable(Get(metadata, "url")) && fault == Healthy {
        var record := Metadata(pk, key, Get(metadata, "url"), now);
        assert once == written.(metadata := d.metadata[pk := record]);
        assert once.metadata[pk := record] == once.metadata;
      }
    }
  }

  /**
   `setItem(key, value, metadata)`: puts `value` under the prefixed key and,
   only when `metadata` is truthy, the record `{key, originalKey, url,
   timestamp}` under the same key in the metadata store.
   */
  function SetItem(db: Db, storage: Storage, key: string, value: JsValue, metadata: JsValue, now: int, env: Env): (r: Step<()>)
    ensures r.db.memo == Acquire(db, env).db.memo
    ensures r.db.opensIssued == Acquire(db, env).db.opensIssued
    ensures Acquire(db, env).outcome.Err? ==> r == Step(Ok(()), Acquire(db, env).db)
    ensures r.outcome.Err? ==> r.outcome.error in {NotFoundError, DataCloneError, RequestError}
    ensures SameExcept(Acquire(db, env).db.disk, r.db.disk, PrefixedKey(storage, key))
    ensures r.db.disk != Acquire(db, env).db.disk ==> Entry(r.db.disk, PrefixedKey(storage, key)) == value
    ensures r.outcome.Ok? && r.db.memo == Connected && env.fault == Healthy ==>
      && Entry(r.db.disk, PrefixedKey(storage, key)) == value
      && PrefixedKey(storage, key) in r.db.disk.values
  {
    var acq := Acquire(db, env);
    if acq.outcome.Err? then Step(Ok(()), acq.db)
    else
      var tx := PutTx(acq.db.disk, PrefixedKey(storage, key), key, value, metadata, now, env.fault);
      Step(tx.outcome, acq.db.(disk := tx.disk))
  }

  /** The default of `getItem(key, defaultValue = null)`. */
  const DefaultValue: JsValue := Null

  /**
   `getItem(key, defaultValue)`: the stored value whenever it is not
   undefined (so `0`, `false` and `''` come back), otherwise the default,
   which is `null` when the caller passes none or passes `undefined`. So a
   read never resolves with `undefined`.
   */
  function GetItem(db: Db, storage: Storage, key: string, default: JsValue, env: Env): (r: Step<JsValue>)
    ensures r.db == Acquire(db, env).db
    ensures Acquire(db, env).outcome.Err? ==> r.outcome == Ok(DefaultArg(default, DefaultValue))
    ensures r.outcome.Err? ==> r.outcome.error in {NotFoundError, RequestError}
    ensures r.outcome.Ok? ==>
      r.outcome.value == DefaultArg(default, DefaultValue) || r.outcome.value == Entry(r.db.disk, PrefixedKey(storage, key))
    ensures r.outcome.Ok? ==> r.outcome.value != Undefined
    ensures Acquire(db, env).outcome.Ok? && StoreName in r.db.disk.storeNames && env.fault != PrimaryRequestFails ==>
      var stored := Entry(r.db.disk, PrefixedKey(storage, key));
      r.outcome == Ok(if stored != Undefined then stored else DefaultArg(default, DefaultValue))
  {
    var pk := PrefixedKey(storage, key);
    var fallback := DefaultArg(default, DefaultValue);
    var acq := Acquire(db, env);
    if acq.outcome.Err? then Step(Ok(fallback), acq.db)
    else if StoreName !in acq.db.disk.storeNames then Step(Err(NotFoundError), acq.db)
    else if env.fault == PrimaryRequestFails then Step(Err(RequestError), acq.db)
    else
      var stored := Entry(acq.db.disk, pk);
      Step(Ok(if stored != Undefined then stored else fallback), acq.db)
  }

  /** `removeItem(key)`: deletes the prefixed key from both stores. */
  function RemoveItem(db: Db, storage: Storage, key: string, env: Env): (r: Step<()>)
    ensures r.db.memo == Acquire(db, env).db.memo
    ensures r.db.opensIssued == Acquire(db, env).db.opensIssued
    ensures Acquire(db, env).outcome.Err? ==> r == Step(Ok(()), Acquire(db, env).db)
    ensures r.outcome.Err? ==> r.outcome.error in {NotFoundError, RequestError} && r.db == Acquire(db, env).db
    ensures SameExcept(Acquire(db, env).db.disk, r.db.disk, PrefixedKey(storage, key))
    ensures r.db.disk != Acquire(db, env).db.disk ==>
      PrefixedKey(storage, key) !in r.db.disk.values && PrefixedKey(storage, key) !in r.db.disk.metadata
    ensures Acquire(db, env).outcome.Ok? && Initialized(r.db.disk) && env.fault == Healthy ==>
      PrefixedKey(storage, key) !in r.db.disk.values && PrefixedKey(storage, key) !in r.db.disk.metadata
    ensures Acquire(db, env).outcome.Ok? && Initialized(Acquire(db, env).db.disk) && env.fault != PrimaryRequestFails ==>
      r.outcome == Ok(())
  {
    var pk := PrefixedKey(storage, key);
    var acq := Acquire(db, env);
    if acq.outcome.Err? then Step(Ok(()), acq.db)
    else
      var d := acq.db.disk;
      if !Initialized(d) then Step(Err(NotFoundError), acq.db)
      else if env.fault == PrimaryRequestFails then Step(Err(RequestError), acq.db)
      else if env.fault == SecondaryRequestFails then Step(Ok(()), acq.db)
      else Step(Ok(()), acq.db.(disk := d.(values := d.values - {pk}, metadata := d.metadata - {pk})))
  }

  /**
   `clear()`: empties both stores for every namespace; the prefix is not
   consulted. The promise settles with the metadata store's clear request,
   which fails too when the value store's clear aborts the transaction.
   */
  function Clear(db: Db, env: Env): (r: Step<()>)
    ensures r.db.memo == Acquire(db, env).db.memo
    ensures r.db.opensIssued == Acquire(db, env).db.opensIssued
    ensures Acquire(db, env).outcome.Err? ==> r == Step(Ok(()), Acquire(db, env).db)
    ensures r.outcome.Err? ==> r.db == Acquire(db, env).db
    ensures r.outcome.Err? && Acquire(db, env).outcome.Ok? && Initialized(r.db.disk) ==> env.fault != Healthy
    ensures r.db.disk != Acquire(db, env).db.disk ==> r.db.disk.values == map[] && r.db.disk.metadata == map[]
    ensures r.db.disk.storeNames == Acquire(db, env).db.disk.storeNames
    ensures r.outcome.Ok? && r.db.memo == Connected && Initialized(r.db.disk) ==>
      r.db.disk.values == map[] && r.db.disk.metadata == map[]
  {
    var acq := Acquire(db, env);
    if acq.outcome.Err? then Step(Ok(()), acq.db)
    else
      var d := acq.db.disk;
      if !Initialized(d) then Step(Err(NotFoundError), acq.db)
      else if env.fault != Healthy then Step(Err(RequestError), acq.db)
      else Step(Ok(()), acq.db.(disk := d.(values := map[], metadata := map[])))
  }

  // ---------------------------------------------------------------------------
  // Connection invariant across calls
  // ---------------------------------------------------------------------------

  /** One call of the facade, with everything it reads from its surroundings. */
  datatype Call =
    | SetCall(storage: Storage, key: string, value: JsValue, metadata: JsValue, now: int, env: Env)
    | GetCall(storage: Storage, key: string, default: JsValue, env: Env)
    | RemoveCall(storage: Storage, key: string, env: Env)
    | ClearCall(env: Env)

  function Apply(db: Db, c: Call): Db {
    match c
    case SetCall(s, k, v, m, now, env) => SetItem(db, s, k, v, m, now, env).db
    case GetCall(s, k, dflt, env) => GetItem(db, s, k, dflt, env).db
    case RemoveCall(s, k, env) => RemoveItem(db, s, k, env).db
    case ClearCall(env) => Clear(db, env).db
  }

  function Run(db: Db, calls: seq<Call>): Db
    decreases |calls|
  {
    if |calls| == 0 then db else Run(Apply(db, calls[0]), calls[1..])
  }

  /** Every facade call keeps the connection invariant. */
  lemma ApplyKeepsWf(db: Db, c: Call)
    requires Wf(db)
    ensures Wf(Apply(db, c))
    ensures db.memo != NoPromise ==> Apply(db, c).memo == db.memo
  {
  }

  /**
   Over any sequence of calls the database is opened at most once, and once
   the memoised promise exists it never changes (a failed open included).
   */
  lemma {:induction false} RunOpensAtMostOnce(db: Db, calls: seq<Call>)
    requires Wf(db)
    ensures Wf(Run(db, calls))
    ensures Run(db, calls).opensIssued <= 1
    ensures db.memo != NoPromise ==> Run(db, calls).memo == db.memo
    decreases |calls|
  {
    if |calls| > 0 {
      ApplyKeepsWf(db, calls[0]);
      RunOpensAtMostOnce(Apply(db, calls[0]), calls[1..]);
    }
  }

  // ---------------------------------------------------------------------------
  // Round trips, isolation and the global flush
  // ---------------------------------------------------------------------------

  /**
   After a healthy write transaction, the value is read back under the same
   prefix, falsy values included; only `undefined` reads as the default.
   */
  lemma SetThenGet(db: Db, storage: Storage, key: string, value: JsValue, metadata: JsValue, now: int,
                   e1: Env, e2: Env, default: JsValue)
    requires Wf(db)
    requires e1.fault == Healthy && e2.fault != PrimaryRequestFails
    requires SetItem(db, storage, key, value, metadata, now, e1).outcome.Ok?
    requires SetItem(db, storage, key, value, metadata, now, e1).db.memo == Connected
    ensures var after := SetItem(db, storage, key, value, metadata, now, e1).db;
      GetItem(after, storage, key, default, e2).outcome == Ok(if value != Undefined then value else DefaultArg(default, DefaultValue))
  {
  }

  /** On an open connection, a removal resolves whether or not the key existed, unless the value store's delete fails. */
  lemma HealthyRemoveResolves(db: Db, storage: Storage, key: string, env: Env)
    requires Wf(db) && db.memo == Connected && env.fault != PrimaryRequestFails
    ensures RemoveItem(db, storage, key, env).outcome == Ok(())
  {
  }

  /**
   When the metadata request fails after the value request succeeded, the
   call has already resolved, but the aborted transaction wrote or removed
   nothing.
   */
  lemma SecondaryFailureResolvesUnwritten(db: Db, storage: Storage, key: string, value: JsValue,
                                          metadata: JsValue, now: int, env: Env)
    requires Wf(db) && db.memo == Connected && env.fault == SecondaryRequestFails
    requires Cloneable(value) && Truthy(metadata) && Cloneable(Get(metadata, "url"))
    ensures SetItem(db, storage, key, value, metadata, now, env) == Step(Ok(()), db)
    ensures RemoveItem(db, storage, key, env) == Step(Ok(()), db)
  {
  }

  /** A key that holds nothing under the current prefix reads as the default. */
  lemma GetAbsentIsDefault(db: Db, storage: Storage, key: string, default: JsValue, env: Env)
    requires Wf(db) && db.memo == Connected && env.fault != PrimaryRequestFails
    requires PrefixedKey(storage, key) !in db.disk.values
    ensures GetItem(db, storage, key, default, env).outcome == Ok(DefaultArg(default, DefaultValue))
  {
  }

  /** After a healthy removal transaction, the key reads as the default, whatever it held before. */
  lemma RemoveThenGet(db: Db, storage: Storage, key: string, e1: Env, e2: Env, default: JsValue)
    requires Wf(db)
    requires e1.fault == Healthy && e2.fault != PrimaryRequestFails
    requires RemoveItem(db, storage, key, e1).db.memo == Connected
    ensures var after := RemoveItem(db, storage, key, e1).db;
      GetItem(after, storage, key, default, e2).outcome == Ok(DefaultArg(default, DefaultValue))
  {
  }

  /** After a successful clear, every key of every namespace reads as the default. */
  lemma ClearThenGet(db: Db, e1: Env, storage: Storage, key: string, e2: Env, default: JsValue)
    requires Wf(db)
    requires Clear(db, e1).outcome.Ok? && Clear(db, e1).db.memo == Connected
    requires e2.fault != PrimaryRequestFails
    ensures GetItem(Clear(db, e1).db, storage, key, default, e2).outcome == Ok(DefaultArg(default, DefaultValue))
  {
  }

  /** Two namespaces never address the same entry for the same key. */
  lemma DistinctPrefixesDistinctKeys(a: Storage, b: Storage, key: string)
    requires Namespace.GetPrefix(a) != Namespace.GetPrefix(b)
    ensures PrefixedKey(a, key) != PrefixedKey(b, key)
  {
    var pa, pb := Namespace.GetPrefix(a), Namespace.GetPrefix(b);
    if pa + key == pb + key {
      SuffixCancels(pa, pb, key);
    }
  }

  /** Strings that end the same way and are equal have equal beginnings. */
  lemma SuffixCancels(p: string, q: string, k: string)
    requires p + k == q + k
    ensures p == q
  {
    assert |p| == |q|;
    assert p == (p + k)[..|p|];
    assert q == (q + k)[..|q|];
  }

  /**
   Namespace isolation: a write under one prefix is invisible to a reader
   under a different prefix, who sees exactly what they saw before.
   */
  lemma SetInvisibleToOtherNamespace(db: Db, a: Storage, b: Storage, key: string, value: JsValue,
                                     metadata: JsValue, now: int, e1: Env, e2: Env, default: JsValue)
    requires Wf(db) && db.memo == Connected
    requires Namespace.GetPrefix(a) != Namespace.GetPrefix(b)
    ensures var after := SetItem(db, a, key, value, metadata, now, e1).db;
      GetItem(after, b, key, default, e2).outcome == GetItem(db, b, key, default, e2).outcome
  {
    DistinctPrefixesDistinctKeys(a, b, key);
  }

  /** On an open connection, a healthy write of a cloneable value with cloneable metadata succeeds. */
  lemma HealthySetSucceeds(db: Db, storage: Storage, key: string, value: JsValue, metadata: JsValue, now: int, env: Env)
    requires Wf(db) && db.memo == Connected && env.fault == Healthy
    requires Cloneable(value) && (Truthy(metadata) ==> Cloneable(Get(metadata, "url")))
    ensures SetItem(db, storage, key, value, metadata, now, env).outcome == Ok(())
    ensures SetItem(db, storage, key, value, metadata, now, env).db.memo == Connected
  {
    assert Acquire(db, env) == Acquired(Ok(()), db);
  }

  /**
   Isolation as seen by two users: after the first writes `key`, the second
   reads their default for it when they had no entry, and the first reads the
   value back.
   */
  lemma IsolatedRoundTrip(db: Db, a: Storage, b: Storage, key: string, value: JsValue, e1: Env, e2: Env, default: JsValue)
    requires Wf(db) && db.memo == Connected
    requires Namespace.GetPrefix(a) != Namespace.GetPrefix(b)
    requires e1.fault == Healthy && e2.fault != PrimaryRequestFails
    requires value != Undefined && Cloneable(value)
    requires PrefixedKey(b, key) !in db.disk.values
    ensures var after := SetItem(db, a, key, value, Null, 0, e1).db;
      && GetItem(after, b, key, default, e2).outcome == Ok(DefaultArg(default, DefaultValue))
      && GetItem(after, a, key, default, e2).outcome == Ok(value)
  {
    SetInvisibleToOtherNamespace(db, a, b, key, value, Null, 0, e1, e2, default);
    GetAbsentIsDefault(db, b, key, default, e2);
    HealthySetSucceeds(db, a, key, value, Null, 0, e1);
    SetThenGet(db, a, key, value, Null, 0, e1, e2, default);
  }

  /**
   The two-user scenario under the default configuration: user 1 caches `x`,
   user 2 then asks for `x` and gets their default, and user 1 still reads
   their own value.
   */
  lemma TwoUsersScenario(db: Db, a: Storage, b: Storage, value: JsValue, e1: Env, e2: Env, default: JsValue)
    requires Wf(db) && db.memo == Connected
    requires Read(a, Namespace.ConfigKey) == Ok(Null) && Read(b, Namespace.ConfigKey) == Ok(Null)
    requires Read(a, Namespace.UserKey) == Ok(Obj(map["id" := Num(1)]))
    requires Read(b, Namespace.UserKey) == Ok(Obj(map["id" := Num(2)]))
    requires e1.fault == Healthy && e2.fault != PrimaryRequestFails
    requires value != Undefined && Cloneable(value)
    requires PrefixedKey(b, "x") !in db.disk.values
    ensures var after := SetItem(db, a, "x", value, Null, 0, e1).db;
      && GetItem(after, b, "x", default, e2).outcome == Ok(DefaultArg(default, DefaultValue))
      && GetItem(after, a, "x", default, e2).outcome == Ok(value)
  {
    Namespace.DistinctIdsDistinctPrefixes(a, b, 1, 2);
    IsolatedRoundTrip(db, a, b, "x", value, e1, e2, default);
  }

  /** The metadata record accompanies a successful write when metadata is given. */
  lemma SetWritesMetadataRecord(db: Db, storage: Storage, key: string, value: JsValue, metadata: JsValue, now: int, env: Env)
    requires Wf(db)
    requires env.fault == Healthy && Truthy(metadata)
    requires SetItem(db, storage, key, value, metadata, now, env).outcome.Ok?
    requires SetItem(db, storage, key, value, metadata, now, env).db.memo == Connected
    ensures var pk := PrefixedKey(storage, key);
      var after := SetItem(db, storage, key, value, metadata, now, env).db.disk;
      pk in after.metadata && after.metadata[pk] == Metadata(pk, key, Get(metadata, "url"), now)
  {
  }

  /** Without metadata the metadata store is left as it was, including any older record for the key. */
  lemma SetWithoutMetadataKeepsRecords(db: Db, storage: Storage, key: string, value: JsValue, metadata: JsValue, now: int, env: Env)
    requires !Truthy(metadata)
    ensures SetItem(db, storage, key, value, metadata, now, env).db.disk.metadata == Acquire(db, env).db.disk.metadata
  {
  }

  /** Writing the same entry twice leaves the database as writing it once. */
  lemma SetIdempotent(db: Db, storage: Storage, key: string, value: JsValue, metadata: JsValue, now: int, env: Env)
    ensures var once := SetItem(db, storage, key, value, metadata, now, env).db;
      SetItem(once, storage, key, value, metadata, now, env).db == once
  {
    var acq := Acquire(db, env);
    var once := SetItem(db, storage, key, value, metadata, now, env).db;
    assert Acquire(once, env) == Acquired(acq.outcome, once);
    if acq.outcome.Ok? {
      PutTxIdempotent(acq.db.disk, PrefixedKey(storage, key), key, value, metadata, now, env.fault);
    }
  }

  /** Clearing twice is clearing once. */
  lemma ClearIdempotent(db: Db, env: Env)
    ensures Clear(Clear(db, env).db, env).db.disk == Clear(db, env).db.disk
  {
  }

  /** Once the open has failed, every call settles with its safe result and the database never changes. */
  lemma FailedConnectionDegradesGracefully(db: Db, storage: Storage, key: string, value: JsValue,
                                           metadata: JsValue, now: int, default: JsValue, env: Env)
    requires db.memo.OpenFailed?
    ensures SetItem(db, storage, key, value, metadata, now, env) == Step(Ok(()), db)
    ensures GetItem(db, storage, key, default, env) == Step(Ok(DefaultArg(default, DefaultValue)), db)
    ensures GetItem(db, storage, key, Undefined, env) == Step(Ok(Null), db)
    ensures RemoveItem(db, storage, key, env) == Step(Ok(()), db)
    ensures Clear(db, env) == Step(Ok(()), db)
  {
  }
}

=== FILE: connection.dfy ===
/**
 The connection manager (`getDB`): the IndexedDB database `ShTableCacheDB`
 at schema version 2, with a value store `table_cache` and a metadata store
 `cache_metadata`. The first call issues the one and only open; its promise
 is memoised in a module-level variable that is never reset, so later calls
 (including concurrent ones) share it, and a failed open stays failed.

 The browser database is abstracted to a version number, the set of existing
 object store names and the contents of the two stores.
 */
module Connection {
  import opened JsValues

  const DbName: string := "ShTableCacheDB"
  const StoreName: string := "table_cache"
  const MetadataStoreName: string := "cache_metadata"
  const DbVersion: nat := 2

  /** The provenance record kept beside a cached value. */
  datatype Metadata = Metadata(key: string, originalKey: string, url: JsValue, timestamp: int)

  /** The database as it sits in the browser profile. */
  datatype Disk = Disk(
    version: nat,
    storeNames: set<string>,
    values: map<string, JsValue>,
    metadata: map<string, Metadata>)

  /** A profile in which the database has never been created. */
  const NoDatabase: Disk := Disk(0, {}, map[], map[])

  /** Both object stores exist. */
  predicate Initialized(d: Disk) {
    StoreName in d.storeNames && MetadataStoreName in d.storeNames
  }

  /** Any database at this schema version went through the upgrade that creates both stores. */
  predicate DiskWf(d: Disk) {
    d.version == DbVersion ==> Initialized(d)
  }

  /**
   The `onupgradeneeded` handler: creates each store only when it is
   missing. A newly created store is empty; an existing one keeps its data.
   */
  function Upgrade(d: Disk): (r: Disk)
    ensures Initialized(r)
    ensures r.storeNames == d.storeNames + {StoreName, MetadataStoreName}
    ensures r.version == d.version
    ensures StoreName in d.storeNames ==> r.values == d.values
    ensures StoreName !in d.storeNames ==> r.values == map[]
    ensures MetadataStoreName in d.storeNames ==> r.metadata == d.metadata
    ensures MetadataStoreName !in d.storeNames ==> r.metadata == map[]
  {
    var withValues :=
      if StoreName in d.storeNames then d
      else d.(storeNames := d.storeNames + {StoreName}, values := map[]);
    if MetadataStoreName in withValues.storeNames then withValues
    else withValues.(storeNames := withValues.storeNames + {MetadataStoreName}, metadata := map[])
  }

  /** Running the upgrade on an initialised database changes nothing. */
  lemma UpgradeNoOpWhenInitialized(d: Disk)
    requires Initialized(d)
    ensures Upgrade(d) == d
  {
  }

  /** Schema creation is idempotent. */
  lemma UpgradeIdempotent(d: Disk)
    ensures Upgrade(Upgrade(d)) == Upgrade(d)
  {
  }

  /** The state of the memoised `dbPromise`. */
  datatype Memo = NoPromise | Connected | OpenFailed(error: JsError)

  /** The connection manager together with the database it opens; `opensIssued` counts `indexedDB.open` calls. */
  datatype Db = Db(memo: Memo, disk: Disk, opensIssued: nat)

  const Start: Db := Db(NoPromise, NoDatabase, 0)

  /** The connection invariant: one open at most, issued exactly when the promise exists. */
  predicate Wf(db: Db) {
    && DiskWf(db.disk)
    && (db.memo == NoPromise <==> db.opensIssued == 0)
    && db.opensIssued <= 1
    && (db.memo == Connected ==> db.disk.version == DbVersion)
  }

  /**
   `indexedDB.open(DB_NAME, DB_VERSION)`: refused by the browser, rejected
   because the stored version is newer, upgraded when older, or opened as is.
   */
  function Open(disk: Disk, refused: bool): (r: (Memo, Disk))
    ensures r.0 == Connected ==> r.1.version == DbVersion
    ensures r.0 == Connected && DiskWf(disk) ==> Initialized(r.1)
    ensures r.0 != Connected ==> r.1 == disk
    ensures r.0 == Connected <==> !refused && disk.version <= DbVersion
    ensures r.0 == Connected ==> r.1.values.Keys <= disk.values.Keys && r.1.metadata.Keys <= disk.metadata.Keys
    ensures disk.version == DbVersion ==> r.1 == disk
    ensures r.0 == Connected && StoreName in disk.storeNames ==> r.1.values == disk.values
    ensures r.0 == Connected && MetadataStoreName in disk.storeNames ==> r.1.metadata == disk.metadata
  {
    if refused then (OpenFailed(OpenError), disk)
    else if disk.version > DbVersion then (OpenFailed(VersionError), disk)
    else if disk.version < DbVersion then (Connected, Upgrade(disk).(version := DbVersion))
    else (Connected, disk)
  }

  datatype Acquired = Acquired(outcome: Result<()>, db: Db)

  /**
   `getDB()`: returns the memoised promise when there is one; otherwise
   issues the open and memoises its promise, whether it succeeds or fails.
   */
  function GetDB(db: Db, refused: bool): (r: Acquired)
    ensures db.memo != NoPromise ==> r.db == db
    ensures r.db.memo != NoPromise
    ensures r.outcome.Ok? <==> r.db.memo == Connected
    ensures r.db.memo.OpenFailed? ==> r.outcome == Err(r.db.memo.error)
    ensures r.db.opensIssued == db.opensIssued + (if db.memo == NoPromise then 1 else 0)
    ensures Wf(db) ==> Wf(r.db)
    ensures Wf(db) && r.db.memo == Connected ==> Initialized(r.db.disk)
  {
    match db.memo
    case Connected => Acquired(Ok(()), db)
    case OpenFailed(e) => Acquired(Err(e), db)
    case NoPromise =>
      var (memo, disk) := Open(db.disk, refused);
      var db' := Db(memo, disk, db.opensIssued + 1);
      Acquired(if memo == Connected then Ok(()) else Err(memo.error), db')
  }

  /**
   Once a promise is memoised, every later call returns it again, issues no
   open and changes nothing, whatever the browser would now do.
   */
  lemma GetDBMemoised(db: Db, first: bool, later: bool)
    ensures var a := GetDB(db, first);
      GetDB(a.db, later) == a
  {
  }

  /** A failed open is cached: the manager never retries. */
  lemma FailedOpenIsPermanent(db: Db, refused: bool)
    requires db.memo.OpenFailed?
    ensures GetDB(db, refused) == Acquired(Err(db.memo.error), db)
  {
  }

  /** The first open of a fresh profile creates both stores, empty, at version 2. */
  lemma FirstOpenCreatesSchema()
    ensures var a := GetDB(Start, false);
      && a.outcome == Ok(())
      && a.db.disk == Disk(DbVersion, {StoreName, MetadataStoreName}, map[], map[])
      && a.db.opensIssued == 1
  {
  }
}

=== FILE: frontend.dfy ===
/**
 The part of the plugin's `install` that decides what is persisted: the
 defaults it computes for form-element classes and the cache field list,
 the session timeout it stores when one is given, and the filter that
 strips the options down to the record stored as `ShConfig` (the record
 the namespace resolver later reads `cacheUserFields` from).

 Plugin options are a plain object, modelled as the map of its own
 properties.
 */
module Frontend {
  import opened JsValues
  import opened KeyValueStore
  import Namespace

  type Options = map<string, JsValue>

  /** Keys that are never persisted. */
  const RemoveKeys: seq<string> := ["formTextInput", "router", "shFormElementClasses"]
  /** Keys persisted even though their values are not primitives. */
  const AllowKeys: seq<string> := ["enableTableCache", "cacheUserFields"]
  /** The `typeof` results that survive; "integer" is listed but `typeof` never yields it. */
  const PrimitiveTypes: seq<string> := ["string", "integer", "number", "boolean"]

  const SessionTimeoutKey: string := "sessionTimeout"

  /** `options[name]`, undefined when the option is not given. */
  function OptionValue(options: Options, name: string): JsValue {
    Get(Obj(options), name)
  }

  /** A string, number or boolean: the values whose `typeof` is in the kept list. */
  predicate Primitive(v: JsValue) {
    v.Str? || v.Num? || v.Bool?
  }

  /** The deletion test applied to each own key of the options. */
  predicate Discarded(key: string, v: JsValue) {
    (TypeOf(v) !in PrimitiveTypes && key !in AllowKeys) || key in RemoveKeys
  }

  /** The options that survive the filter, with their values unchanged. */
  function PersistedOptions(options: Options): (r: Options)
    ensures r.Keys <= options.Keys
    ensures forall k :: k in r ==> r[k] == options[k]
    ensures forall k :: k in RemoveKeys ==> k !in r
    ensures forall k :: k in options && k !in RemoveKeys && Primitive(options[k]) ==> k in r
    ensures forall k :: k in options && !Primitive(options[k]) && k !in AllowKeys ==> k !in r
    ensures forall k :: k in options && k in AllowKeys ==> k in r
  {
    map k | k in options && !Discarded(k, options[k]) :: options[k]
  }

  /**
   The filter as the plugin runs it: walk a snapshot of the option keys and
   delete, in place, every key the test discards. The order of the walk does
   not matter: the result is always the declarative filter.
   */
  method DeleteUnwanted(options: Options) returns (kept: Options)
    ensures kept == PersistedOptions(options)
  {
    kept := options;
    var pending := options.Keys;
    while pending != {}
      invariant pending <= options.Keys
      invariant kept.Keys <= options.Keys
      invariant forall k :: k in kept ==> kept[k] == options[k]
      invariant forall k :: k in pending ==> k in kept
      invariant forall k :: k in options && k !in pending ==> (k in kept <==> !Discarded(k, options[k]))
      decreases pending
    {
      var k :| k in pending;
      if Discarded(k, kept[k]) {
        kept := kept - {k};
      }
      pending := pending - {k};
    }
    assert kept.Keys == PersistedOptions(options).Keys;
  }

  /** The class names provided to form components. */
  datatype FormElementClasses = FormElementClasses(
    formGroup: JsValue,
    formLabel: JsValue,
    helperText: JsValue,
    actionBtn: JsValue,
    formErrorTitle: JsValue,
    invalidFeedback: JsValue,
    formControl: JsValue)

  /** The literal defaults, as written (the `formControl` default repeats the `invalidFeedback` one). */
  const DefaultClasses: FormElementClasses := FormElementClasses(
    Str("mb-2"), Str("form-label"), Str("form-text"), Str("btn btn-primary"),
    Str("alert alert-danger"), Str("invalid-feedback"), Str("invalid-feedback"))

  /** The seven classes. */
  datatype ClassName = FormGroup | FormLabel | HelperText | ActionBtn | FormErrorTitle | InvalidFeedback | FormControl

  /** The property under which each class is given. */
  function Key(n: ClassName): string {
    match n
    case FormGroup => "formGroup"
    case FormLabel => "formLabel"
    case HelperText => "helperText"
    case ActionBtn => "actionBtn"
    case FormErrorTitle => "formErrorTitle"
    case InvalidFeedback => "invalidFeedback"
    case FormControl => "formControl"
  }

  /** The class provided under `n`. */
  function ClassOf(c: FormElementClasses, n: ClassName): JsValue {
    match n
    case FormGroup => c.formGroup
    case FormLabel => c.formLabel
    case HelperText => c.helperText
    case ActionBtn => c.actionBtn
    case FormErrorTitle => c.formErrorTitle
    case InvalidFeedback => c.invalidFeedback
    case FormControl => c.formControl
  }

  /** The classes as a plain object, one property per class. */
  function ClassesObject(c: FormElementClasses): (r: JsValue)
    ensures r.Obj?
    ensures forall n :: Key(n) in r.props && r.props[Key(n)] == ClassOf(c, n)
  {
    Obj(map[
      "formGroup" := c.formGroup, "formLabel" := c.formLabel, "helperText" := c.helperText,
      "actionBtn" := c.actionBtn, "formErrorTitle" := c.formErrorTitle,
      "invalidFeedback" := c.invalidFeedback, "formControl" := c.formControl])
  }

  /** `given.<class> ?? <its default>` for one class. */
  function ResolveClass(given: JsValue, n: ClassName): (r: JsValue)
    ensures given.Obj? && Key(n) in given.props && !Nullish(given.props[Key(n)]) ==> r == given.props[Key(n)]
    ensures !(given.Obj? && Key(n) in given.props && !Nullish(given.props[Key(n)])) ==> r == ClassOf(DefaultClasses, n)
  {
    Coalesce(Get(given, Key(n)), ClassOf(DefaultClasses, n))
  }

  /**
   `options.shFormElementClasses ?? {}`, then each class `?? its default`:
   a class given as an own property with a non-nullish value wins, every
   other class takes its literal default, so no resolved class is nullish.
   */
  function ElementClasses(options: Options): (r: FormElementClasses)
    ensures forall n ::
      var given := OptionValue(options, "shFormElementClasses");
      ClassOf(r, n) ==
        if given.Obj? && Key(n) in given.props && !Nullish(given.props[Key(n)]) then given.props[Key(n)]
        else ClassOf(DefaultClasses, n)
    ensures forall n :: !Nullish(ClassOf(r, n))
  {
    var given := Coalesce(OptionValue(options, "shFormElementClasses"), Obj(map[]));
    FormElementClasses(
      ResolveClass(given, FormGroup), ResolveClass(given, FormLabel), ResolveClass(given, HelperText),
      ResolveClass(given, ActionBtn), ResolveClass(given, FormErrorTitle),
      ResolveClass(given, InvalidFeedback), ResolveClass(given, FormControl))
  }

  /** No classes given (or not an object): every class takes its default. */
  lemma NoClassesGivenUsesDefaults(options: Options)
    requires !OptionValue(options, "shFormElementClasses").Obj?
    ensures ElementClasses(options) == DefaultClasses
    ensures ElementClasses(options).formControl == Str("invalid-feedback")
  {
  }

  /** Two class sets that agree on every class are the same. */
  lemma ClassesExtensional(c: FormElementClasses, d: FormElementClasses)
    requires forall n :: ClassOf(c, n) == ClassOf(d, n)
    ensures c == d
  {
    assert ClassOf(c, FormGroup) == ClassOf(d, FormGroup);
    assert ClassOf(c, FormLabel) == ClassOf(d, FormLabel);
    assert ClassOf(c, HelperText) == ClassOf(d, HelperText);
    assert ClassOf(c, ActionBtn) == ClassOf(d, ActionBtn);
    assert ClassOf(c, FormErrorTitle) == ClassOf(d, FormErrorTitle);
    assert ClassOf(c, InvalidFeedback) == ClassOf(d, InvalidFeedback);
    assert ClassOf(c, FormControl) == ClassOf(d, FormControl);
  }

  /**
   Resolving is idempotent: handing the resolved classes back in as the
   class option resolves to the same classes, whatever was given first.
   */
  lemma ElementClassesIdempotent(options: Options)
    ensures var again := options["shFormElementClasses" := ClassesObject(ElementClasses(options))];
      ElementClasses(again) == ElementClasses(options)
  {
    var c := ElementClasses(options);
    var again := options["shFormElementClasses" := ClassesObject(c)];
    assert OptionValue(again, "shFormElementClasses") == ClassesObject(c);
    ClassesExtensional(ElementClasses(again), c);
  }

  /** `options.cacheUserFields ?? ['id']`, the field list provided to components. */
  function ProvidedCacheUserFields(options: Options): (r: JsValue)
    ensures !Nullish(OptionValue(options, "cacheUserFields")) ==> r == OptionValue(options, "cacheUserFields")
    ensures Nullish(OptionValue(options, "cacheUserFields")) ==> r == Namespace.DefaultCacheUserFields
  {
    Coalesce(OptionValue(options, "cacheUserFields"), Namespace.DefaultCacheUserFields)
  }

  datatype Installed = Installed(storage: Storage, classes: FormElementClasses, cacheUserFields: JsValue)

  /**
   The persistent effect of `install`: a truthy session timeout is stored
   under `sessionTimeout`, and the filtered options under `ShConfig`; no
   other entry of the key/value store changes.
   */
  function Install(options: Options, storage: Storage): (r: Installed)
    ensures Read(r.storage, Namespace.ConfigKey) == Ok(Obj(PersistedOptions(options)))
    ensures Truthy(OptionValue(options, SessionTimeoutKey)) ==>
      Read(r.storage, SessionTimeoutKey) == Ok(OptionValue(options, SessionTimeoutKey))
    ensures !Truthy(OptionValue(options, SessionTimeoutKey)) ==>
      Read(r.storage, SessionTimeoutKey) == Read(storage, SessionTimeoutKey)
    ensures forall k :: k != Namespace.ConfigKey && k != SessionTimeoutKey ==> Read(r.storage, k) == Read(storage, k)
    ensures r.classes == ElementClasses(options)
    ensures r.cacheUserFields == ProvidedCacheUserFields(options)
  {
    var timeout := OptionValue(options, SessionTimeoutKey);
    var withTimeout := if Truthy(timeout) then Write(storage, SessionTimeoutKey, timeout) else storage;
    Installed(
      Write(withTimeout, Namespace.ConfigKey, Obj(PersistedOptions(options))),
      ElementClasses(options),
      ProvidedCacheUserFields(options))
  }

  /**
   An array `cacheUserFields` option survives into the stored configuration,
   so the namespace resolver uses exactly the field list that was provided
   to components; without the option both fall back to `['id']`.
   */
  lemma InstalledFieldsDrivePrefix(options: Options, storage: Storage)
    requires OptionValue(options, "cacheUserFields").Arr? || "cacheUserFields" !in options
    ensures var config := Read(Install(options, storage).storage, Namespace.ConfigKey).value;
      Namespace.CacheUserFields(config) == ProvidedCacheUserFields(options)
  {
  }
}

=== FILE: js_values.dfy ===
/**
 The slice of JavaScript's value semantics that the cache, the namespace
 resolver and the plugin option filter rely on: truthiness, nullishness,
 `typeof`, the `??` and `||` operators, string conversion (as used by
 `Array.prototype.join` and by property keys), own-property lookup and the
 structured-clone test that IndexedDB applies to stored values.

 Numbers are modelled as integers; objects are maps of their own properties.
 */
module JsValues {

  datatype JsValue =
    | Undefined
    | Null
    | Bool(b: bool)
    | Num(n: int)
    | Str(s: string)
    | Sym(description: string)
    | Func(source: string)
    | Arr(elems: seq<JsValue>)
    | Obj(props: map<string, JsValue>)

  /** The exceptions (or promise rejection reasons) that the modelled code can meet. */
  datatype JsError =
    | TypeError        // calling a missing method, converting a Symbol to a string
    | SyntaxError      // a key/value store entry that cannot be parsed back
    | DataCloneError   // IndexedDB `put` of a value the structured clone cannot copy
    | NotFoundError    // a transaction over an object store that does not exist
    | VersionError     // opening the database below its stored version
    | OpenError        // the browser refuses to open the database at all
    | RequestError     // a read, write or delete request inside a transaction fails

  /** A normal completion with a value, or an abrupt one (throw / rejection). */
  datatype Result<T> = Ok(value: T) | Err(error: JsError)

  /** `v === undefined || v === null` */
  predicate Nullish(v: JsValue) {
    v.Undefined? || v.Null?
  }

  /** JavaScript's ToBoolean. */
  predicate Truthy(v: JsValue) {
    match v
    case Undefined => false
    case Null => false
    case Bool(b) => b
    case Num(n) => n != 0
    case Str(s) => s != ""
    case _ => true
  }

  /** The `typeof` operator (`null` and arrays are "object"). */
  function TypeOf(v: JsValue): (r: string)
    ensures r in {"undefined", "object", "boolean", "number", "string", "symbol", "function"}
    ensures r == "object" <==> v.Null? || v.Arr? || v.Obj?
  {
    match v
    case Undefined => "undefined"
    case Null => "object"
    case Bool(_) => "boolean"
    case Num(_) => "number"
    case Str(_) => "string"
    case Sym(_) => "symbol"
    case Func(_) => "function"
    case Arr(_) => "object"
    case Obj(_) => "object"
  }

  /** `v ?? fallback` */
  function Coalesce(v: JsValue, fallback: JsValue): (r: JsValue)
    ensures !Nullish(v) ==> r == v
    ensures Nullish(v) ==> r == fallback
  {
    if Nullish(v) then fallback else v
  }

  /**
   The value a parameter with a default takes: an argument passed as
   `undefined` (or not passed at all) is replaced by the default.
   */
  function DefaultArg(arg: JsValue, default: JsValue): (r: JsValue)
    ensures !arg.Undefined? ==> r == arg
    ensures arg.Undefined? ==> r == default
  {
    if arg.Undefined? then default else arg
  }

  /** `v || fallback` */
  function OrElse(v: JsValue, fallback: JsValue): (r: JsValue)
    ensures Truthy(v) ==> r == v
    ensures !Truthy(v) ==> r == fallback
  {
    if Truthy(v) then v else fallback
  }

  /** The decimal digit character for 0 <= d < 10. */
  function DigitChar(d: int): (c: char)
    requires 0 <= d < 10
    ensures '0' <= c <= '9'
  {
    ('0' as int + d) as char
  }

  predicate IsDigits(s: string) {
    forall i :: 0 <= i < |s| ==> '0' <= s[i] <= '9'
  }

  /** Decimal rendering of a natural number, without leading zeros. */
  function NatToString(n: nat): (r: string)
    ensures |r| >= 1 && IsDigits(r)
    ensures n < 10 <==> |r| == 1
    decreases n
  {
    if n < 10 then [DigitChar(n)] else NatToString(n / 10) + [DigitChar(n % 10)]
  }

  /** Number::toString for the integers the model keeps. */
  function IntToString(n: int): (r: string)
    ensures |r| >= 1
    ensures r[0] == '-' <==> n < 0
  {
    if n < 0 then "-" + NatToString(-n) else NatToString(n)
  }

  /** Two naturals with the same decimal rendering are equal. */
  lemma {:induction false} NatToStringInjective(a: nat, b: nat)
    requires NatToString(a) == NatToString(b)
    ensures a == b
    decreases a
  {
    if a < 10 || b < 10 {
      assert a < 10 && b < 10;
      assert DigitChar(a) == NatToString(a)[0] == NatToString(b)[0] == DigitChar(b);
    } else {
      var sa, sb := NatToString(a / 10), NatToString(b / 10);
      assert NatToString(a) == sa + [DigitChar(a % 10)];
      assert NatToString(b) == sb + [DigitChar(b % 10)];
      assert |sa| == |sb|;
      assert sa == NatToString(a)[..|sa|] == NatToString(b)[..|sb|] == sb;
      assert DigitChar(a % 10) == NatToString(a)[|sa|] == NatToString(b)[|sb|] == DigitChar(b % 10);
      NatToStringInjective(a / 10, b / 10);
    }
  }

  /** Distinct integers print differently. */
  lemma IntToStringInjective(a: int, b: int)
    requires IntToString(a) == IntToString(b)
    ensures a == b
  {
    var ra := IntToString(a);
    assert (a < 0) == (ra[0] == '-') == (b < 0);
    if a < 0 {
      assert NatToString(-a) == ra[1..] == NatToString(-b);
      NatToStringInjective(-a, -b);
    } else {
      NatToStringInjective(a, b);
    }
  }

  /**
   JavaScript's ToString. Arrays render as their elements joined with ",";
   plain objects as "[object Object]"; a function as its source text;
   a Symbol cannot be converted and throws a TypeError.
   */
  function ToString(v: JsValue): (r: Result<string>)
    ensures v.Sym? ==> r == Err(TypeError)
    ensures v.Str? ==> r == Ok(v.s)
    ensures v.Num? ==> r == Ok(IntToString(v.n))
    ensures r.Err? ==> r.error == TypeError
    decreases v, 1
  {
    match v
    case Undefined => Ok("undefined")
    case Null => Ok("null")
    case Bool(b) => Ok(if b then "true" else "false")
    case Num(n) => Ok(IntToString(n))
    case Str(s) => Ok(s)
    case Sym(_) => Err(TypeError)
    case Func(src) => Ok(src)
    case Arr(es) => Join(es, ",")
    case Obj(_) => Ok("[object Object]")
  }

  /** How `join` renders one element: nullish elements become the empty string. */
  function ElementString(e: JsValue): (r: Result<string>)
    ensures r.Err? ==> r.error == TypeError
    decreases e, 2
  {
    if Nullish(e) then Ok("") else ToString(e)
  }

  /** `Array.prototype.join(sep)` over the elements `es`. */
  function Join(es: seq<JsValue>, sep: string): (r: Result<string>)
    ensures |es| == 0 ==> r == Ok("")
    ensures r.Err? ==> r.error == TypeError
    decreases es
  {
    if |es| == 0 then Ok("")
    else
      match ElementString(es[0])
      case Err(e) => Err(e)
      case Ok(head) =>
        if |es| == 1 then Ok(head)
        else
          match Join(es[1..], sep)
          case Err(e) => Err(e)
          case Ok(rest) => Ok(head + sep + rest)
  }

  /** A join succeeds exactly when every element can be rendered as a string. */
  lemma {:induction false} JoinOkIffAllRender(es: seq<JsValue>, sep: string)
    ensures Join(es, sep).Ok? <==> forall i :: 0 <= i < |es| ==> ElementString(es[i]).Ok?
    decreases es
  {
    if |es| > 1 {
      JoinOkIffAllRender(es[1..], sep);
      assert forall i :: 1 <= i < |es| ==> es[i] == es[1..][i - 1];
    }
  }

  /**
   A successful join is empty exactly when there is nothing to join, or a
   single element that renders as the empty string (with a non-empty
   separator).
   */
  lemma JoinEmptyIff(es: seq<JsValue>, sep: string, joined: string)
    requires sep != ""
    requires Join(es, sep) == Ok(joined)
    ensures joined == "" <==> |es| == 0 || (|es| == 1 && ElementString(es[0]) == Ok(""))
  {
  }

  /** `v[name]` for a string key: an own property of an object, otherwise undefined. */
  function Get(v: JsValue, name: string): (r: JsValue)
    ensures !v.Obj? ==> r == Undefined
    ensures v.Obj? && name !in v.props ==> r == Undefined
  {
    if v.Obj? && name in v.props then v.props[name] else Undefined
  }

  /**
   `v[key]` for an arbitrary key value: the key is converted to a property
   key first, which can throw (an array holding a Symbol); a Symbol key names
   no string-keyed own property.
   */
  function Lookup(v: JsValue, key: JsValue): (r: Result<JsValue>)
    ensures key.Str? ==> r == Ok(Get(v, key.s))
    ensures key.Sym? ==> r == Ok(Undefined)
    ensures r.Err? ==> r.error == TypeError
  {
    if key.Sym? then Ok(Undefined)
    else
      match ToString(key)
      case Err(e) => Err(e)
      case Ok(name) => Ok(Get(v, name))
  }

  /** True when the structured clone algorithm can copy `v` (no functions, no symbols). */
  predicate Cloneable(v: JsValue) {
    match v
    case Sym(_) => false
    case Func(_) => false
    case Arr(es) => forall i :: 0 <= i < |es| ==> Cloneable(es[i])
    case Obj(m) => forall k :: k in m ==> Cloneable(m[k])
    case _ => true
  }
}

=== FILE: key_value_store.dfy ===
/**
 The persisted process-wide key/value store (`ShStorage`) that holds the
 plugin configuration (`ShConfig`), the signed-in user (`user`) and the
 session timeout. Its implementation is not part of this model: it is an
 abstract map whose entries either hold a value or cannot be read back
 (a read of such an entry throws, as a failed parse would).
 */
module KeyValueStore {
  import opened JsValues

  datatype Slot = Stored(value: JsValue) | Unreadable

  type Storage = map<string, Slot>

  /** `ShStorage.getItem(key)`: a missing entry reads as `null`. */
  function Read(storage: Storage, key: string): (r: Result<JsValue>)
    ensures key !in storage ==> r == Ok(Null)
    ensures key in storage && storage[key].Stored? ==> r == Ok(storage[key].value)
    ensures r.Err? <==> key in storage && storage[key].Unreadable?
  {
    if key !in storage then Ok(Null)
    else
      match storage[key]
      case Stored(v) => Ok(v)
      case Unreadable => Err(SyntaxError)
  }

  /** `ShStorage.setItem(key, value)`: a later read of `key` yields `value`. */
  function Write(storage: Storage, key: string, value: JsValue): (r: Storage)
    ensures Read(r, key) == Ok(value)
    ensures forall k :: k != key ==> Read(r, k) == Read(storage, k)
  {
    storage[key := Stored(value)]
  }
}

=== FILE: namespace.dfy ===
/**
 The namespace resolver (`getPrefix`): every cache key is prefixed with a
 string derived from the signed-in user, so that users sharing a browser
 profile never see each other's cached entries. The prefix is built from
 the configured, ordered list of user-field names (`cacheUserFields`,
 default `['id']`); it never throws, and any failure yields the empty
 (shared) namespace.
 */
module Namespace {
  import opened JsValues
  import opened KeyValueStore

  const ConfigKey: string := "ShConfig"
  const UserKey: string := "user"
  const Separator: string := "_"

  /** The field list used when the configuration names none. */
  const DefaultCacheUserFields: JsValue := Arr([Str("id")])

  const EmptyObject: JsValue := Obj(map[])

  /** `config.cacheUserFields || ['id']` */
  function CacheUserFields(config: JsValue): (r: JsValue)
    ensures Truthy(Get(config, "cacheUserFields")) ==> r == Get(config, "cacheUserFields")
    ensures !Truthy(Get(config, "cacheUserFields")) ==> r == DefaultCacheUserFields
  {
    OrElse(Get(config, "cacheUserFields"), DefaultCacheUserFields)
  }

  /** `fields.map(field => user[field])` */
  function LookupAll(user: JsValue, fields: seq<JsValue>): (r: Result<seq<JsValue>>)
    ensures r.Ok? ==> |r.value| == |fields|
    ensures r.Ok? ==> forall i :: 0 <= i < |fields| ==> Lookup(user, fields[i]) == Ok(r.value[i])
    ensures r.Err? <==> exists i :: 0 <= i < |fields| && Lookup(user, fields[i]).Err?
    ensures r.Err? ==> r.error == TypeError
  {
    if |fields| == 0 then Ok([])
    else
      match Lookup(user, fields[0])
      case Err(e) => Err(e)
      case Ok(v) =>
        match LookupAll(user, fields[1..])
        case Err(e) =>
          assert forall i :: 1 <= i < |fields| ==> fields[i] == fields[1..][i - 1];
          Err(e)
        case Ok(vs) => Ok([v] + vs)
  }

  /** Looking up a single field yields that field's value. */
  lemma LookupAllSingle(user: JsValue, field: JsValue)
    requires Lookup(user, field).Ok?
    ensures LookupAll(user, [field]) == Ok([Lookup(user, field).value])
  {
    var fields := [field];
    var v := Lookup(user, field).value;
    assert fields[0] == field && fields[1..] == [];
    assert LookupAll(user, fields[1..]) == Ok([]);
    assert Lookup(user, fields[0]) == Ok(v);
    assert [v] + [] == [v];
    assert LookupAll(user, fields) == Ok([v] + []);
  }

  /** `.filter(val => val !== undefined && val !== null)`, keeping the order. */
  function DropNullish(vs: seq<JsValue>): (r: seq<JsValue>)
    ensures |r| <= |vs|
    ensures forall v :: v in r <==> v in vs && !Nullish(v)
  {
    if |vs| == 0 then []
    else if Nullish(vs[0]) then DropNullish(vs[1..])
    else [vs[0]] + DropNullish(vs[1..])
  }

  /** A single value is kept exactly when it is neither `undefined` nor `null`. */
  lemma DropNullishSingle(v: JsValue)
    ensures !Nullish(v) ==> DropNullish([v]) == [v]
    ensures Nullish(v) ==> DropNullish([v]) == []
  {
  }

  /** The filter works element by element: it commutes with concatenation, so order and repetitions are kept. */
  lemma {:induction false} DropNullishAppend(a: seq<JsValue>, b: seq<JsValue>)
    ensures DropNullish(a + b) == DropNullish(a) + DropNullish(b)
    decreases |a|
  {
    if |a| == 0 {
      assert a + b == b;
    } else {
      assert (a + b)[0] == a[0];
      assert (a + b)[1..] == a[1..] + b;
      DropNullishAppend(a[1..], b);
    }
  }

  /** The non-nullish values of the configured fields, in configured order. */
  function ResolvedValues(config: JsValue, user: JsValue): (r: Result<seq<JsValue>>)
    ensures !CacheUserFields(config).Arr? ==> r == Err(TypeError)
    ensures r.Err? ==> r.error == TypeError
    ensures CacheUserFields(config).Arr? ==>
      (r.Ok? <==> LookupAll(user, CacheUserFields(config).elems).Ok?)
    ensures r.Ok? ==> forall v :: v in r.value ==> !Nullish(v)
    ensures r.Ok? ==> |r.value| <= |CacheUserFields(config).elems|
    ensures r.Ok? ==> r.value == DropNullish(LookupAll(user, CacheUserFields(config).elems).value)
  {
    var fields := CacheUserFields(config);
    if !fields.Arr? then Err(TypeError)   // `fields.map` is not a function
    else
      match LookupAll(user, fields.elems)
      case Err(e) => Err(e)
      case Ok(vs) => Ok(DropNullish(vs))
  }

  /** The body of the `try` in `getPrefix`, for an already-read config and user. */
  function PrefixOf(config: JsValue, user: JsValue): (r: Result<string>)
    ensures r.Ok? ==> r.value == "" || r.value[|r.value| - 1] == '_'
    ensures ResolvedValues(config, user) == Ok([]) ==> r == Ok("")
    ensures r.Ok? <==>
      ResolvedValues(config, user).Ok? && Join(ResolvedValues(config, user).value, Separator).Ok?
    ensures r.Err? ==> r.error == TypeError
  {
    match ResolvedValues(config, user)
    case Err(e) => Err(e)
    case Ok(vals) =>
      match Join(vals, Separator)
      case Err(e) => Err(e)
      case Ok(joined) => Ok(if joined != "" then joined + Separator else "")
  }

  /**
   `getPrefix()`: reads the configuration and the user (each defaulting to
   `{}` when falsy), and falls back to the empty prefix on any exception.
   */
  function GetPrefix(storage: Storage): (r: string)
    ensures r == "" || r[|r| - 1] == '_'
    ensures Read(storage, ConfigKey).Err? || Read(storage, UserKey).Err? ==> r == ""
    ensures Read(storage, ConfigKey).Ok? && Read(storage, UserKey).Ok? ==>
      var config := OrElse(Read(storage, ConfigKey).value, EmptyObject);
      var user := OrElse(Read(storage, UserKey).value, EmptyObject);
      (PrefixOf(config, user).Ok? ==> r == PrefixOf(config, user).value) &&
      (PrefixOf(config, user).Err? ==> r == "")
  {
    match Read(storage, ConfigKey)
    case Err(_) => ""
    case Ok(c) =>
      match Read(storage, UserKey)
      case Err(_) => ""
      case Ok(u) =>
        match PrefixOf(OrElse(c, EmptyObject), OrElse(u, EmptyObject))
        case Err(_) => ""
        case Ok(p) => p
  }

  /**
   The prefix is empty exactly when no configured field resolved to a value,
   or a single one did and it renders as the empty string; otherwise it is
   the rendered values joined with `_`, followed by `_`.
   */
  lemma PrefixEmptyIff(config: JsValue, user: JsValue, p: string)
    requires PrefixOf(config, user) == Ok(p)
    ensures ResolvedValues(config, user).Ok?
    ensures var vals := ResolvedValues(config, user).value;
      && (p == "" <==> |vals| == 0 || (|vals| == 1 && ElementString(vals[0]) == Ok("")))
      && (p != "" ==> Join(vals, Separator).Ok? && p == Join(vals, Separator).value + Separator)
  {
  }

  /**
   Whenever the field values resolve and join, the build succeeds with the
   `_`-joined values followed by `_`, however many fields resolved.
   */
  lemma PrefixOfSucceeds(config: JsValue, user: JsValue, vals: seq<JsValue>, j: string)
    requires ResolvedValues(config, user) == Ok(vals) && Join(vals, Separator) == Ok(j)
    ensures PrefixOf(config, user) == Ok(if j != "" then j + Separator else "")
  {
  }

  /** Two configured fields that both resolve give both values, in order: `{id: 1, org: 2}` under `['id', 'org']` is `1_2_`. */
  lemma TwoFieldPrefix()
    ensures PrefixOf(Obj(map["cacheUserFields" := Arr([Str("id"), Str("org")])]),
                     Obj(map["id" := Num(1), "org" := Num(2)])) == Ok("1_2_")
  {
    var config := Obj(map["cacheUserFields" := Arr([Str("id"), Str("org")])]);
    var user := Obj(map["id" := Num(1), "org" := Num(2)]);
    var fields := [Str("id"), Str("org")];
    assert CacheUserFields(config) == Arr(fields);
    assert Lookup(user, Str("id")) == Ok(Num(1));
    assert Lookup(user, Str("org")) == Ok(Num(2));
    LookupAllSingle(user, Str("org"));
    assert fields[1..] == [Str("org")];
    assert LookupAll(user, fields) == Ok([Num(1)] + [Num(2)]);
    var vals := [Num(1), Num(2)];
    assert [Num(1)] + [Num(2)] == vals;
    assert vals[1..] == [Num(2)];
    assert DropNullish(vals[1..]) == [Num(2)];
    assert DropNullish(vals) == vals;
    assert ResolvedValues(config, user) == Ok(vals);
    assert IntToString(1) == "1" && IntToString(2) == "2";
    assert ElementString(Num(1)) == Ok("1") && ElementString(Num(2)) == Ok("2");
    assert Join(vals[1..], Separator) == Ok("2");
    assert vals[0] == Num(1) && |vals| == 2;
    assert "1" + Separator + "2" == "1_2";
    assert Join(vals, Separator) == Ok("1_2");
    assert "1_2" + Separator == "1_2_";
    PrefixOfSucceeds(config, user, vals, "1_2");
  }

  /** Looking fields up on an object without own properties finds nothing. */
  lemma {:induction false} LookupAllOnEmptyObject(fields: seq<JsValue>)
    ensures LookupAll(EmptyObject, fields).Ok? ==>
      forall i :: 0 <= i < |fields| ==> LookupAll(EmptyObject, fields).value[i] == Undefined
  {
  }

  /** Nothing survives the nullish filter when every value is undefined. */
  lemma {:induction false} DropNullishAllUndefined(vs: seq<JsValue>)
    requires forall i :: 0 <= i < |vs| ==> vs[i] == Undefined
    ensures DropNullish(vs) == []
  {
    if |vs| > 0 {
      DropNullishAllUndefined(vs[1..]);
    }
  }

  /** No signed-in user (a missing or falsy `user` entry): the shared namespace, whatever the configuration. */
  lemma NoUserGivesEmptyPrefix(storage: Storage)
    requires Read(storage, UserKey).Ok? && !Truthy(Read(storage, UserKey).value)
    ensures GetPrefix(storage) == ""
  {
    if Read(storage, ConfigKey).Ok? {
      var config := OrElse(Read(storage, ConfigKey).value, EmptyObject);
      var fields := CacheUserFields(config);
      if fields.Arr? && LookupAll(EmptyObject, fields.elems).Ok? {
        var vs := LookupAll(EmptyObject, fields.elems).value;
        LookupAllOnEmptyObject(fields.elems);
        DropNullishAllUndefined(vs);
        assert ResolvedValues(config, EmptyObject) == Ok([]);
      }
    }
  }

  /**
   With no `cacheUserFields` configured, the prefix is the user's `id`
   rendered as a string, followed by `_`, whenever that rendering is
   non-empty.
   */
  lemma DefaultFieldsUseId(storage: Storage, id: JsValue, s: string)
    requires Read(storage, ConfigKey).Ok?
    requires !Truthy(Get(OrElse(Read(storage, ConfigKey).value, EmptyObject), "cacheUserFields"))
    requires Read(storage, UserKey).Ok?
    requires Get(Read(storage, UserKey).value, "id") == id && !Nullish(id)
    requires ToString(id) == Ok(s) && s != ""
    ensures GetPrefix(storage) == s + "_"
  {
    var config := OrElse(Read(storage, ConfigKey).value, EmptyObject);
    var user := OrElse(Read(storage, UserKey).value, EmptyObject);
    assert user == Read(storage, UserKey).value;
    assert Lookup(user, Str("id")) == Ok(id);
    assert [Str("id")][1..] == [];
    LookupAllSingle(user, Str("id"));
    assert DropNullish([id]) == [id];
    assert ResolvedValues(config, user) == Ok([id]);
    assert Join([id], Separator) == Ok(s);
  }

  /** The user `{id: 7}` with the default configuration gets the prefix `7_`. */
  lemma UserSevenPrefix()
    ensures GetPrefix(map[UserKey := Stored(Obj(map["id" := Num(7)]))]) == "7_"
  {
  }

  /** Under the default configuration, users with different numeric ids get different prefixes. */
  lemma DistinctIdsDistinctPrefixes(a: Storage, b: Storage, idA: int, idB: int)
    requires Read(a, ConfigKey).Ok? && !Truthy(Get(OrElse(Read(a, ConfigKey).value, EmptyObject), "cacheUserFields"))
    requires Read(b, ConfigKey).Ok? && !Truthy(Get(OrElse(Read(b, ConfigKey).value, EmptyObject), "cacheUserFields"))
    requires Read(a, UserKey).Ok? && Get(Read(a, UserKey).value, "id") == Num(idA)
    requires Read(b, UserKey).Ok? && Get(Read(b, UserKey).value, "id") == Num(idB)
    requires idA != idB
    ensures GetPrefix(a) != GetPrefix(b)
  {
    DefaultFieldsUseId(a, Num(idA), IntToString(idA));
    DefaultFieldsUseId(b, Num(idB), IntToString(idB));
    if GetPrefix(a) == GetPrefix(b) {
      var sa, sb := IntToString(idA), IntToString(idB);
      assert sa + "_" == sb + "_";
      assert |sa| == |sb|;
      assert sa == (sa + "_")[..|sa|] == (sb + "_")[..|sb|] == sb;
      IntToStringInjective(idA, idB);
    }
  }
}

=== FILE: repo.dfy ===
/**
 The two helpers of the shared repository module that belong to the cache:
 `getShConfig`, the read side of the persisted plugin configuration, and
 `flushCache`, the public entry point to the cache's global flush.
 */
module Repo {
  import opened JsValues
  import opened KeyValueStore
  import opened Connection
  import Namespace
  import Cache
  import Frontend

  /** The defaults of `getShConfig(key = null, def = '')`. */
  const DefaultKey: JsValue := Null
  const DefaultDef: JsValue := Str("")

  /**
   `getShConfig(key, def)`: the whole configuration for a falsy key (`{}`
   when none is stored); otherwise the keyed value, or `def` when that is
   nullish. A parameter passed as `undefined` takes its default (`null`
   for `key`, `''` for `def`). A store entry that cannot be read
   propagates its exception.
   */
  function GetShConfig(storage: Storage, key: JsValue, def: JsValue): (r: Result<JsValue>)
    ensures Read(storage, Namespace.ConfigKey).Err? ==> r == Err(Read(storage, Namespace.ConfigKey).error)
    ensures Read(storage, Namespace.ConfigKey).Ok? && !Truthy(key) ==>
      r == Ok(Coalesce(Read(storage, Namespace.ConfigKey).value, Namespace.EmptyObject))
    ensures Read(storage, Namespace.ConfigKey).Ok? && key.Str? && key.s != "" ==>
      var v := Get(Read(storage, Namespace.ConfigKey).value, key.s);
      r == Ok(if Nullish(v) then DefaultArg(def, DefaultDef) else v)
    ensures r.Ok? && Truthy(key) ==> r.value == DefaultArg(def, DefaultDef) || !Nullish(r.value)
    ensures Read(storage, Namespace.ConfigKey).Ok? && Truthy(key) ==>
      var found := Lookup(Coalesce(Read(storage, Namespace.ConfigKey).value, Namespace.EmptyObject), key);
      && (found.Err? ==> r == Err(TypeError))
      && (found.Ok? && !Nullish(found.value) ==> r == Ok(found.value))
      && (found.Ok? && Nullish(found.value) ==> r == Ok(DefaultArg(def, DefaultDef)))
  {
    var k, d := DefaultArg(key, DefaultKey), DefaultArg(def, DefaultDef);
    match Read(storage, Namespace.ConfigKey)
    case Err(e) => Err(e)
    case Ok(stored) =>
      var config := Coalesce(stored, Namespace.EmptyObject);
      if Truthy(k) then
        match Lookup(config, k)
        case Err(e) => Err(e)
        case Ok(v) => Ok(Coalesce(v, d))
      else Ok(config)
  }

  /**
   With no stored configuration, every keyed lookup answers `def` (`''` for
   an undefined `def`), and the whole configuration is `{}`.
   */
  lemma MissingConfigGivesDefault(storage: Storage, name: string, def: JsValue)
    requires Namespace.ConfigKey !in storage
    ensures name != "" ==> GetShConfig(storage, Str(name), def) == Ok(DefaultArg(def, DefaultDef))
    ensures GetShConfig(storage, DefaultKey, DefaultDef) == Ok(Namespace.EmptyObject)
    ensures name != "" ==> GetShConfig(storage, Str(name), Undefined) == Ok(Str(""))
  {
  }

  /** A number key reads the property named by its decimal rendering: `getShConfig(1)` reads `config['1']`. */
  lemma NumberKeyReadsRenderedProperty(storage: Storage, v: JsValue, def: JsValue)
    requires Namespace.ConfigKey in storage && storage[Namespace.ConfigKey] == Stored(Obj(map["1" := v]))
    ensures !Nullish(v) ==> GetShConfig(storage, Num(1), def) == Ok(v)
    ensures Nullish(v) ==> GetShConfig(storage, Num(1), def) == Ok(DefaultArg(def, DefaultDef))
  {
    assert IntToString(1) == "1";
  }

  /** After `install`, every option the filter strips reads back as `def`, and a kept primitive option reads back as given. */
  lemma InstalledConfigReadBack(options: Frontend.Options, storage: Storage, name: string, def: JsValue)
    requires name != ""
    ensures var s := Frontend.Install(options, storage).storage;
      && (name !in Frontend.PersistedOptions(options) ==> GetShConfig(s, Str(name), def) == Ok(DefaultArg(def, DefaultDef)))
      && (name in Frontend.RemoveKeys ==> GetShConfig(s, Str(name), def) == Ok(DefaultArg(def, DefaultDef)))
      && (name in options && name !in Frontend.RemoveKeys && Frontend.Primitive(options[name]) ==>
            GetShConfig(s, Str(name), def) == Ok(options[name]))
  {
  }

  /** `flushCache()` is exactly the cache's global `clear()`: when it succeeds, both stores are empty for every user. */
  function FlushCache(db: Db, env: Cache.Env): (r: Cache.Step<()>)
    ensures r == Cache.Clear(db, env)
    ensures Wf(db) && r.outcome.Ok? && r.db.memo == Connected ==>
      r.db.disk.values == map[] && r.db.disk.metadata == map[]
  {
    Cache.Clear(db, env)
  }
}
